=== FILE: README.md ===
# Silos: a virtual-actor runtime, modelled in Dafny

This project models the bookkeeping core of `Silos`, a small virtual-actor
runtime written in TypeScript. An actor is a logical entity named by an id.
The runtime keeps at most one live instance per id and activates it lazily on
the first call. Calls go through references that forward every method call.
Each call holds a per-actor exclusion slot while it runs. Instances can
snapshot and refresh their state through a persistence gateway.

The model is functional: one immutable `Runtime` record and pure transitions.

- `wrappers.dfy` (`Wrappers`): `Option` and `Result`.
- `keys.dfy` (`Keys`): the text `${type}-${id}` that keys both the store and the active-call map.
- `persistence.dfy` (`Persistence`): the default in-memory gateway, keyed by the text `${type}-${id}`.
- `identity.dfy` (`Identity`): how an object's id is read (`getId`).
- `slots.dfy` (`Slots`): the active-call map, with acquire and release.
- `actors.dfy` (`Actors`): actor classes, instances, `fresh`/`snap`, lifecycle hooks and method bodies.
- `silos.dfy` (`Silos`): the runtime state.
  - It holds the type registry, the instance directory (with its insertion order), the active-call map, the store, a construction counter and a trace of lifecycle hooks.
  - Its operations are `register`, `clear`, activation, `invoke`, `ref` and `load`.
- `scenario.dfy` (`Scenario`): the repository's counter scenario, run as a script and proved.

Decisions:

- Actor classes and method bodies are user code. The model uses a closed set of behaviours:
  - hooks: refresh, snapshot, or do nothing;
  - methods: increment the counter; refresh, increment and snapshot; or reject.
- The codec is the identity on an instance's plain data (its id and counter).
- Each top-level call runs to completion before the next one starts.
  - A call that finds its slot held returns `Blocked`, because the source would suspend there and the model has no scheduler.
- The construction counter counts every `new` of an actor class. That covers directory activations and `load`'s fallback.
- The instance directory is keyed by id alone. The exclusion slot and the store are keyed by the composed text. The model keeps both keyings as the source has them.
- On an unregistered type name, the source throws only when the id is not live. A live id is served whatever type name the call carries.

## Model

| member | source | states |
|---|---|---|
| Keys.Compose | src/index.ts:15 | The key is the type name, then '-', then the id, each recoverable at its position. |
| Keys.ComposeInjective | src/index.ts:97 | When neither type name contains '-', the composed key determines the (type, id) pair, so store records and exclusion slots of different actors stay apart. |
| Keys.ComposeCollision | src/index.ts:21 | ("a-b","c") and ("a","b-c") are different pairs with the same key "a-b-c". |
| Persistence.Save | src/index.ts:14-18 | The record for `${type}-${id}` becomes the model. Every other key keeps its record. |
| Persistence.Read | src/index.ts:20-23 | Returns null exactly when nothing is stored under `${type}-${id}`. Otherwise returns the stored record. |
| Persistence.ReadAfterSave | src/index.ts:14-23 | Reading a pair right after saving it returns the saved model. |
| Persistence.ReadNeverSaved | src/index.ts:20-23 | Starting from the empty gateway, a pair whose composed key no save in the history produced reads as null. |
| Persistence.UntouchedKeyKept | src/index.ts:14-23 | Any number of saves under other composed keys leave a pair's read as it was. |
| Persistence.ReadNeverSavedPair | src/index.ts:15-21 | When no type name contains '-', a pair that was never itself saved reads as null. Collisions are the only way to read another pair's record. |
| Persistence.SaveFrame | src/index.ts:14-23 | A save leaves the read of every other composed key unchanged. |
| Persistence.KeyCollision | src/index.ts:15 | ("a-b","c") and ("a","b-c") share the key "a-b-c", so saving one overwrites what the other reads. |
| Identity.GetId | src/index.ts:26-28 | An `id` method's result wins, then an `id` field. `_id` is the answer only when there is no `id` at all. |
| Identity.UnderscoreIdIsFallback | src/index.ts:27 | Any `id` member hides `_id`: the result does not depend on it. |
| Identity.EmptyIdFieldIsKept | src/index.ts:27 | An empty-string `id` field is kept, because `??` falls back only on null or undefined. |
| Slots.Acquire | src/index.ts:97-104 | A call gets the slot exactly when nobody holds it. The call then holds it, and every other slot is kept. |
| Slots.Release | src/index.ts:107-109 | After release, the finishing call no longer holds the slot. A slot recorded for a different call is left alone, and no other key changes. |
| Slots.AcquireExcludes | src/index.ts:98-104 | While one call holds a slot, a second call on that key cannot take it. |
| Slots.AcquireReleaseRestores | src/index.ts:97-109 | Acquiring and then releasing a slot gives back the active-call map the call found. |
| Slots.SettleAsWritten | src/index.ts:106-109 | As written, a call that returned releases its slot. A call whose promise rejected leaves the active-call map as it was, with its own entry still held. |
| Slots.RejectedCallKeepsSlot | src/index.ts:104-109 | As written, a rejected call's slot stays held with that call, so every later acquire on that key fails. |
| Actors.Construct | src/index.ts:91 | `new ctr(id)` builds an instance of that class with the initial counter. Its id is the argument unless the class fixes it. |
| Actors.Snap | src/index.ts:141-144 | After a snapshot, the instance's class and id read back as its packed data. No other composed key changes. |
| Actors.Fresh | src/index.ts:113-119 | With no record, refreshing leaves the instance unchanged. With a record, the stored fields overwrite its own and the class is kept. |
| Actors.FreshAfterSnap | src/index.ts:113-119 | An instance of the same class and id, refreshed after a snapshot, takes over the snapshotted counter. |
| Actors.UnpackPack | src/index.ts:117 | Unpacking a packed instance as its own class gives the instance back. |
| Actors.RunAction | src/index.spec.ts:13-20 | A refresh hook rehydrates the instance as `fresh` does and leaves the store alone. A snapshot hook stores the instance as `snap` does and leaves the instance alone. An idle hook touches nothing. |
| Actors.RunBody | src/index.spec.ts:21-24 | `count` returns the new counter, one more than before. The self-persisting variant of src/run.ts refreshes the instance as `fresh` does and increments its counter. It then stores the result as `snap` does, under the instance's own key, and keeps every other record. A rejecting method changes nothing. |
| Silos.RegisterAll | src/index.ts:74-79 | Each name becomes the last argument with that name. Names not passed keep their constructor, and the key set gains exactly the names passed. |
| Silos.Register | src/index.ts:74-79 | Registration changes the registry only, so live instances are not orphaned. Last writer wins per name. |
| Silos.RegisterOne | src/index.ts:76 | Registering one constructor maps its name to it and touches no other name. |
| Silos.SleepAll | src/index.ts:50-54 | The graceful loop records a sleep for each live instance that has the hook. The number of sleeps per id equals that id's occurrences in the visiting order, and nothing else is recorded. |
| Silos.Clear | src/index.ts:44-56 | Both modes empty the directory. A forced drain also empties the registry and leaves the store and the hook trace alone. A graceful drain keeps the registry, and it changes no record whose key no live instance's snapshotting `onSleep` composes to. |
| Silos.SleepAllFrame | src/index.ts:50-54 | The drain loop leaves a record alone when no snapshotting instance it visits stores under that record's key. |
| Silos.SleepAllStores | src/index.ts:50-54 | A snapshotting instance visited by the drain loop leaves its packed data in the store, unless a later visited instance snapshots under the same key. |
| Silos.GracefulDrainFrame | src/index.ts:50-55 | A graceful drain changes no record whose key no live instance's snapshotting `onSleep` composes to. |
| Silos.GracefulDrainStores | src/index.ts:50-55 | A graceful drain stores each live instance's packed data through its snapshotting `onSleep`. When two live instances share a key, the one later in insertion order wins. |
| Silos.GracefulSleepsOnce | src/index.ts:50-55 | A graceful drain runs `onSleep` exactly once for each live instance that has it, and no `onWake`. |
| Silos.ForcedRunsNoHook | src/index.ts:45-48 | A forced drain runs no hook and leaves the store unchanged. |
| Silos.Activate | src/index.ts:88-96 | A live id is reused and nothing changes. Otherwise an unregistered name fails with nothing changed. A registered name gets exactly one construction and a new directory entry. With an `onWake` hook, the directory holds the constructed instance after that hook ran, and the store is what the hook left. |
| Silos.ActivatePreservesWellFormed | src/index.ts:88-92 | After activation, the directory's insertion order still lists every live id exactly once. |
| Silos.KeyedByIdAlone | src/index.ts:88-92 | For a live id, activation under any two type names gives the same result: the existing instance of its own class. |
| Silos.Invoke | src/index.ts:87-111 | Registry unchanged. `Unregistered` exactly when the id is not live and the name unknown. A construction exactly when the id is not live and the name is known. Other instances kept. A free slot is free again afterwards. A held slot blocks after the activation, for a new id as well as a live one, and the call runs no method. Once activated with a free slot, a missing method fails with `NotAFunction` after the activation and changes nothing else. Otherwise the method's body runs on the instance. The directory then holds the instance the body left, the store is what the body left, and the next ticket advances. Nothing else in the runtime changes. The call returns the body's value, or `Rejected` when the body rejects. |
| Silos.InvokePreservesWellFormed | src/index.ts:87-111 | After a call, the directory's insertion order still lists every live id exactly once. |
| Silos.ReuseDoesNotConstruct | src/index.ts:88-96 | A call on a live id constructs nothing and keeps that instance's class, whatever type name it carries. |
| Silos.RejectedCallFreesSlot | src/index.ts:104-109 | In the corrected runtime, a rejected call on any class reports `Rejected` and its instance stays live. The next call on the same actor, to any method, is not blocked. |
| Silos.ReactivationConstructs | src/index.ts:50-55 | After a graceful drain, a call on any id whose type is still registered constructs a new instance. The construction count grows by one. |
| Silos.ForcedReactivationConstructs | src/index.ts:45-48 | After a forced drain, a call through a fresh reference registers the type again and constructs a new instance of that class. The construction count grows by one. |
| Silos.ForcedClearForgetsTypes | src/index.ts:45-48 | After a forced drain, a call not preceded by a registration fails as unregistered and changes nothing. |
| Silos.Ref | src/index.ts:177-190 | `ref` registers the constructor and changes nothing else. The reference carries the constructor's name, and its id defaults to that name. |
| Silos.Call | src/index.ts:188-190 | A call through a reference forwards with the reference's type name and id. It keeps the registry, never fails as unregistered when that type is registered, and uses the composed key of that type name and id as its slot. |
| Silos.RefRegisters | src/index.ts:184 | A call through a fresh reference never fails as unregistered, even after a forced drain. |
| Silos.Load | src/index.ts:203-206 | `load` leaves the directory, registry and store alone. A stored record is unpacked with no construction. Without one, a new instance is constructed and counted. |
| Silos.SnapThenLoad | src/index.ts:203-206 | Loading right after a snapshot returns the snapshotted instance and constructs nothing. |
| Scenario.ExecMatchesExpected | src/index.spec.ts:29-48 | For either scenario class (hooked or self-persisting), any script of references to the actor "actor", `count` calls, drains and count reads yields what a summary (live counter, stored counter, constructions) predicts. Calls through different references to one id share one counter. |
| Scenario.HookedScenario | src/index.spec.ts:27-48 | With `onWake`/`onSleep` wired to refresh and snapshot, the calls return 1..5 with one construction. After a graceful drain they return 6..8 with two constructions. |
| Scenario.SelfPersistingScenario | src/run.ts:29-51 | With `count` refreshing and snapshotting by itself and no hooks, the same 1..8 sequence and construction counts hold. |

## Left out

- The suspension loop on a held slot (src/index.ts:98-100) and the interleaving of concurrent calls. Only the acquire and release steps are modelled, and a call that finds its slot held reports `Blocked`.
- The `Packer` codec. Packing is the identity on an instance's id and counter, and `Packer.register` has no effect.
- `Silos.id`: id generation calls an external UUID function.
- The `wait` chain and the `console.log` in `read` (src/index.ts:127-137). These are library plumbing and output.
- The one-argument `read(model)` form. It is the same gateway read, keyed by the object's own type and id.
- Runtime reflection:
  - `getMethods`;
  - the proxy object and `Object.setPrototypeOf` in `ref`;
  - `getType`'s constructor and `$type` probing.
  - In place of these, a class's methods are an explicit map, and its type name is a given string.
- The empty `Reference` class and the `Silos` constructor that shares another instance's registry.
- The `main()` driver of src/run.ts. Its scenario appears only as a lemma.
- Hooks that throw. In the source, a throwing `onSleep` aborts the graceful drain and leaves every instance live. A throwing `onWake` leaves the new instance registered. Hooks here never fail.
- Method arguments. `Invoke` and `Call` take none, and the modelled bodies use none. The proxy collects `...args` (src/index.ts:188-189), and `invoke` passes that array as the method's single first parameter with `.call(inst, args)` (src/index.ts:102). It does not spread the array over the parameters. The repository's own calls pass no arguments.
- Methods that throw synchronously. Only promise rejection (`Reject`) and a missing method (`NotAFunction`) are modelled.
- Actors.RunBody: counters are unbounded integers. JavaScript numbers lose precision beyond 2^53.
- Actors.Snap, Actors.Fresh: both compose the key from the instance's `id` field, where the source calls `getId` (src/index.ts:113, 142). The method and `_id` forms of `getId` are modelled only in `Identity.GetId`.
- Persistence.Read: a `null` or `undefined` value that was stored explicitly would read as null. The model stores only packed instances, so this case does not arise.
- Silos.Invoke: the exclusion slot is released whether the method returns or rejects. The source releases it only when the method returns (see Findings).

## Findings

| source | as written | input that shows it | evidently intended | confidence | as-written member | corrected member |
|---|---|---|---|---|---|---|
| src/index.ts:104-109 | When the method's promise rejects, the `await` on line 106 throws before lines 107-109 run, so `activeCalls[key]` keeps the rejected promise. | Any method that rejects, e.g. on actor "actor" of type "Actor". Every later call on that actor waits on the stale promise at line 99, receives its rejection and throws, so the actor stays unusable. | Each call removes its own slot when it finishes, whether it returned or threw. The identity check on line 107 exists to keep each call's release to its own slot. | high; not executed | Slots.RejectedCallKeepsSlot | Silos.RejectedCallFreesSlot |

=== FILE: actors.dfy ===
/**
 * Actor classes and their live instances, as the runtime sees them: a
 * constructor taking an id, optional `onWake`/`onSleep` hooks, methods, and
 * the `fresh`/`snap` state transfer through the persistence gateway. The
 * codec is the identity on an instance's plain data (its id and counter).
 */
module Actors {
  import opened Wrappers
  import Persistence
  import Keys

  /** What a lifecycle hook does: `fresh(this)`, `snap(this)`, or nothing observable. */
  datatype Action = Refresh | Snapshot | Idle

  /**
   * What a method does: increment and return the counter; the same bracketed
   * by `fresh(this)` and `snap(this)`; or reject its promise.
   */
  datatype Body = Count | CountPersisted | Reject

  /**
   * An actor class. `fixedId` is an id field initialiser that ignores the
   * constructor argument (as in `id = "actor"`); `initial` is the counter's
   * initialiser; `methods` are the methods callable through references,
   * the lifecycle hooks excluded (those are `onWake` and `onSleep`).
   */
  datatype Factory = Factory(
    name: string,
    fixedId: Option<string>,
    initial: int,
    onWake: Option<Action>,
    onSleep: Option<Action>,
    methods: map<string, Body>)

  /** A live object of class `cls`; `id` is its `id` field. */
  datatype Instance = Instance(cls: Factory, id: string, counter: int)

  /** The packed plain data of an instance, as stored by the persistence gateway. */
  datatype Model = Model(id: string, counter: int)

  type Store = Persistence.Store<Model>

  /** `new f(id)`: the id field holds the argument unless the class fixes it. */
  function Construct(f: Factory, id: string): (r: Instance)
    ensures r.cls == f && r.counter == f.initial
    ensures f.fixedId.None? ==> r.id == id
    ensures f.fixedId.Some? ==> r.id == f.fixedId.value
  {
    Instance(f, f.fixedId.GetOr(id), f.initial)
  }

  /** The plain data of an instance that the gateway stores. */
  function Pack(i: Instance): (m: Model) {
    Model(i.id, i.counter)
  }

  /** Field assignment of unpacked data onto an object (`Object.assign`). */
  function Assign(i: Instance, m: Model): (r: Instance) {
    i.(id := m.id, counter := m.counter)
  }

  /** Unpacking a stored model as an object of class `f`. */
  function Unpack(f: Factory, m: Model): (r: Instance) {
    Instance(f, m.id, m.counter)
  }

  /** Packing and unpacking an instance as its own class gives the instance back. */
  lemma UnpackPack(i: Instance)
    ensures Unpack(i.cls, Pack(i)) == i
  {
  }

  /** `snap(model)`: stores the packed instance under its class name and id. */
  function Snap(s: Store, i: Instance): (r: Store)
    ensures Persistence.Read(r, i.cls.name, i.id) == Some(Pack(i))
    ensures forall t, id :: Keys.Compose(t, id) != Keys.Compose(i.cls.name, i.id) ==>
              Persistence.Read(r, t, id) == Persistence.Read(s, t, id)
  {
    Persistence.Save(s, i.cls.name, i.id, Pack(i))
  }

  /**
   * `fresh(model)`: reads the record under the instance's class name and id;
   * without one the instance is left alone, otherwise the stored fields are
   * assigned onto it.
   */
  function Fresh(s: Store, i: Instance): (r: Instance)
    ensures r.cls == i.cls
    ensures Persistence.Read(s, i.cls.name, i.id).None? ==> r == i
    ensures Persistence.Read(s, i.cls.name, i.id).Some? ==>
              Pack(r) == Persistence.Read(s, i.cls.name, i.id).value
  {
    match Persistence.Read(s, i.cls.name, i.id)
    case None => i
    case Some(m) => Assign(i, m)
  }

  /**
   * A fresh instance of the snapshotted object's class and id takes over the
   * snapshotted counter: this is how `onWake`/`onSleep` carry state across
   * a drain.
   */
  lemma FreshAfterSnap(s: Store, x: Instance, y: Instance)
    requires y.cls.name == x.cls.name && y.id == x.id
    ensures Fresh(Snap(s, x), y) == y.(counter := x.counter)
  {
  }

  /** The effect of running a hook on instance `i`: the instance and the store afterwards. */
  function RunAction(s: Store, i: Instance, a: Action): (r: (Instance, Store))
    ensures r.0.cls == i.cls
    ensures a.Refresh? ==> r.0 == Fresh(s, i)
    ensures a.Snapshot? ==> r.0 == i && r.1 == Snap(s, i)
    ensures !a.Snapshot? ==> r.1 == s
    ensures a.Idle? ==> r.0 == i
  {
    match a
    case Refresh => (Fresh(s, i), s)
    case Snapshot => (i, Snap(s, i))
    case Idle => (i, s)
  }

  /** The effect of one method call: the instance and store afterwards, and the value returned (`None` when it rejects). */
  datatype Effect = Effect(inst: Instance, store: Store, result: Option<int>)

  /** Runs a method body on instance `i`. */
  function RunBody(s: Store, i: Instance, b: Body): (r: Effect)
    ensures r.inst.cls == i.cls
    ensures r.result.None? <==> b.Reject?
    ensures r.result.Some? ==> r.result.value == r.inst.counter
    ensures b.Count? ==> r.inst.counter == i.counter + 1 && r.inst.id == i.id && r.store == s
    ensures b.CountPersisted? ==> Persistence.Read(r.store, i.cls.name, r.inst.id) == Some(Pack(r.inst))
    ensures b.CountPersisted? && Persistence.Read(s, i.cls.name, i.id).None? ==> r.inst.counter == i.counter + 1
    ensures b.CountPersisted? && Persistence.Read(s, i.cls.name, i.id).Some? ==>
              r.inst.counter == Persistence.Read(s, i.cls.name, i.id).value.counter + 1
    ensures b.CountPersisted? ==>
              r.inst == Fresh(s, i).(counter := Fresh(s, i).counter + 1) && r.store == Snap(s, r.inst)
    ensures b.Reject? ==> r.inst == i && r.store == s
  {
    match b
    case Count =>
      var i' := i.(counter := i.counter + 1);
      Effect(i', s, Some(i'.counter))
    case CountPersisted =>
      var i' := Fresh(s, i);
      var i'' := i'.(counter := i'.counter + 1);
      Effect(i'', Snap(s, i''), Some(i''.counter))
    case Reject =>
      Effect(i, s, None)
  }
}

=== FILE: identity.dfy ===
/** How the runtime reads an object's id (`getId` in src/index.ts). */
module Identity {
  import opened Wrappers

  /** The shape of an object's `id` member: a method, a plain field, or nothing (`null`/`undefined`). */
  datatype IdMember = IdMethod(result: string) | IdField(value: string) | NoId

  /**
   * The id of an object: the `id` method's result if `id` is a method,
   * otherwise the `id` field, and only when there is no `id` at all the
   * `_id` field (which may be absent too).
   */
  function GetId(id: IdMember, underscoreId: Option<string>): (r: Option<string>)
    ensures id.IdMethod? ==> r == Some(id.result)
    ensures id.IdField? ==> r == Some(id.value)
    ensures r != underscoreId ==> r.Some? && !id.NoId?
  {
    match id
    case IdMethod(s) => Some(s)
    case IdField(s) => Some(s)
    case NoId => underscoreId
  }

  /** `_id` is consulted only as a fallback: any `id` member hides it completely. */
  lemma UnderscoreIdIsFallback(id: IdMember, u1: Option<string>, u2: Option<string>)
    requires !id.NoId?
    ensures GetId(id, u1) == GetId(id, u2)
  {
  }

  /** `??` falls back on null or undefined only: an empty-string `id` field is kept. */
  lemma EmptyIdFieldIsKept(underscoreId: Option<string>)
    ensures GetId(IdField(""), underscoreId) == Some("")
  {
  }
}

=== FILE: keys.dfy ===
/**
 * The text key `${typeName}-${id}` that both the default persistence
 * gateway and the active-call map compose from a type name and an id.
 */
module Keys {

  function Compose(typeName: string, id: string): (k: string)
    ensures |k| == |typeName| + 1 + |id|
    ensures k[..|typeName|] == typeName && k[|typeName|] == '-' && k[|typeName| + 1..] == id
  {
    typeName + "-" + id
  }

  /** Collisions need a '-' in a type name: without one, the composed key determines the pair. */
  lemma ComposeInjective(t: string, i: string, t': string, i': string)
    requires '-' !in t && '-' !in t'
    requires Compose(t, i) == Compose(t', i')
    ensures t == t' && i == i'
  {
  }

  /** Distinct pairs can share a key: ("a-b", "c") and ("a", "b-c") both become "a-b-c". */
  lemma ComposeCollision()
    ensures ("a-b", "c") != ("a", "b-c")
    ensures Compose("a-b", "c") == Compose("a", "b-c") == "a-b-c"
  {
    assert Compose("a-b", "c") == "a-b-c";
    assert Compose("a", "b-c") == "a-b-c";
  }
}

=== FILE: persistence.dfy ===
/**
 * The default persistence gateway: an in-memory key-value store keyed by
 * the text `${type}-${id}` composed from a type name and an id.
 */
module Persistence {
  import opened Wrappers
  import Keys

  /** The backing map of the gateway, from composed key to stored model. */
  type Store<V> = map<string, V>

  /** Stores `model` under the composed key of (typeName, id), overwriting any previous record. */
  function Save<V>(s: Store<V>, typeName: string, id: string, model: V): (r: Store<V>)
    ensures r.Keys == s.Keys + {Keys.Compose(typeName, id)}
    ensures r[Keys.Compose(typeName, id)] == model
    ensures forall k :: k in s && k != Keys.Compose(typeName, id) ==> r[k] == s[k]
  {
    s[Keys.Compose(typeName, id) := model]
  }

  /** Reads the record under the composed key of (typeName, id); `None` stands for the `null` of a missing key. */
  function Read<V>(s: Store<V>, typeName: string, id: string): (r: Option<V>)
    ensures r.None? <==> Keys.Compose(typeName, id) !in s
    ensures r.Some? ==> s[Keys.Compose(typeName, id)] == r.value
  {
    var key := Keys.Compose(typeName, id);
    if key in s then Some(s[key]) else None
  }

  /** A read right after a save of the same pair returns the saved model. */
  lemma ReadAfterSave<V>(s: Store<V>, typeName: string, id: string, model: V)
    ensures Read(Save(s, typeName, id, model), typeName, id) == Some(model)
  {
  }

  /** One call of `save(type, id, model)`. */
  datatype Write<V> = Write(typeName: string, id: string, model: V)

  /** The store after the given saves, in order. */
  function SaveAll<V>(s: Store<V>, h: seq<Write<V>>): (r: Store<V>)
    decreases |h|
  {
    if |h| == 0 then s
    else SaveAll(Save(s, h[0].typeName, h[0].id, h[0].model), h[1..])
  }

  /**
   * Starting from the empty gateway, a pair reads as `null` when no save in
   * the history composed its key.
   */
  lemma {:induction false} ReadNeverSaved<V>(h: seq<Write<V>>, typeName: string, id: string)
    requires forall k :: 0 <= k < |h| ==> Keys.Compose(h[k].typeName, h[k].id) != Keys.Compose(typeName, id)
    ensures Read(SaveAll(map[], h), typeName, id) == None
  {
    UntouchedKeyKept(map[], h, typeName, id);
  }

  /** Saves under other composed keys leave a pair's read as it was. */
  lemma {:induction false} UntouchedKeyKept<V>(s: Store<V>, h: seq<Write<V>>, typeName: string, id: string)
    requires forall k :: 0 <= k < |h| ==> Keys.Compose(h[k].typeName, h[k].id) != Keys.Compose(typeName, id)
    ensures Read(SaveAll(s, h), typeName, id) == Read(s, typeName, id)
    decreases |h|
  {
    if |h| > 0 {
      var s' := Save(s, h[0].typeName, h[0].id, h[0].model);
      assert Read(s', typeName, id) == Read(s, typeName, id);
      UntouchedKeyKept(s', h[1..], typeName, id);
    }
  }

  /**
   * Without '-' in any type name, a pair that was never itself saved reads
   * as `null`; collisions are the only way to read another pair's record.
   */
  lemma ReadNeverSavedPair<V>(h: seq<Write<V>>, typeName: string, id: string)
    requires '-' !in typeName
    requires forall k :: 0 <= k < |h| ==> '-' !in h[k].typeName && (h[k].typeName, h[k].id) != (typeName, id)
    ensures Read(SaveAll(map[], h), typeName, id) == None
  {
    forall k | 0 <= k < |h|
      ensures Keys.Compose(h[k].typeName, h[k].id) != Keys.Compose(typeName, id)
    {
      if Keys.Compose(h[k].typeName, h[k].id) == Keys.Compose(typeName, id) {
        Keys.ComposeInjective(h[k].typeName, h[k].id, typeName, id);
      }
    }
    ReadNeverSaved(h, typeName, id);
  }

  /** A save changes the read of no other composed key. */
  lemma SaveFrame<V>(s: Store<V>, typeName: string, id: string, model: V, typeName': string, id': string)
    requires Keys.Compose(typeName', id') != Keys.Compose(typeName, id)
    ensures Read(Save(s, typeName, id, model), typeName', id') == Read(s, typeName', id')
  {
  }

  /**
   * Distinct pairs can share a composed key: ("a-b", "c") and ("a", "b-c")
   * both become "a-b-c", so saving one overwrites what the other reads.
   */
  lemma KeyCollision<V>(s: Store<V>, model: V)
    ensures ("a-b", "c") != ("a", "b-c")
    ensures Read(Save(s, "a-b", "c", model), "a", "b-c") == Some(model)
  {
    Keys.ComposeCollision();
  }
}

=== FILE: scenario.dfy ===
/**
 * The repository's own scenario: a counter actor called through three
 * references to the same id, with a graceful drain in between.
 */
module Scenario {
  import opened Wrappers
  import opened Actors
  import opened Silos
  import Slots
  import Persistence
  import Keys

  /** The test's actor: `id = "actor"`, `counter = 0`, `onWake` refreshes, `onSleep` snapshots, `count` increments. */
  const HookedActor := Factory("Actor", Some("actor"), 0, Some(Refresh), Some(Snapshot), map["count" := Count])

  /** The driver's actor: no hooks, and `count` refreshes, increments and snapshots by itself. */
  const SelfPersistingActor := Factory("Actor", Some("actor"), 0, None, None, map["count" := CountPersisted])

  /** What `ref(Actor, "actor")` returns. */
  const ActorRef := Reference("Actor", "actor")

  /** One line of the scenario: take a reference, call `count` through the i-th reference taken, drain gracefully, or read the construction count. */
  datatype Step = TakeRef | CountVia(ref: nat) | DrainGracefully | ReadConstructions

  /** What a line of the scenario observes. */
  datatype Observation = Returned(result: Result<int, Error>) | Constructions(count: nat)

  /**
   * Runs scenario steps against actor class `f` (referenced as "actor");
   * `refs` are the references taken so far, and a call through a reference
   * not yet taken is skipped.
   */
  function Exec(rt: Runtime, f: Factory, refs: seq<Reference>, steps: seq<Step>): (obs: seq<Observation>)
    decreases |steps|
  {
    if |steps| == 0 then []
    else match steps[0]
      case TakeRef =>
        var (rt', r) := Ref(rt, f, Some("actor"));
        Exec(rt', f, refs + [r], steps[1..])
      case CountVia(i) =>
        if i < |refs| then
          var (rt', res) := Call(rt, refs[i], "count");
          [Returned(res)] + Exec(rt', f, refs, steps[1..])
        else Exec(rt, f, refs, steps[1..])
      case DrainGracefully =>
        Exec(Clear(rt, false), f, refs, steps[1..])
      case ReadConstructions =>
        [Constructions(rt.constructed)] + Exec(rt, f, refs, steps[1..])
  }

  /**
   * The repository's scenario: `a = ref(Actor, "actor")`, two calls through
   * `a`, `b = ref(Actor, "actor")`, two calls through `b`, one through `a`,
   * the construction count, a graceful drain, `c = ref(Actor, "actor")`, one
   * call each through `a`, `b` and `c`, and the construction count.
   */
  const Script: seq<Step> := [
    TakeRef, CountVia(0), CountVia(0),
    TakeRef, CountVia(1), CountVia(1), CountVia(0),
    ReadConstructions,
    DrainGracefully,
    TakeRef, CountVia(0), CountVia(1), CountVia(2),
    ReadConstructions]

  /** What the repository's test expects of `Script`. */
  const Expectations: seq<Observation> := [
    Returned(Ok(1)), Returned(Ok(2)), Returned(Ok(3)), Returned(Ok(4)), Returned(Ok(5)),
    Constructions(1),
    Returned(Ok(6)), Returned(Ok(7)), Returned(Ok(8)),
    Constructions(2)]

  /**
   * The observable part of a runtime in the scenario: only `f` is registered,
   * no slot is held, the actor is live with counter `live` or not at all,
   * the store holds counter `stored` for it or nothing, and `constructed`
   * constructions happened.
   */
  predicate Summarizes(rt: Runtime, f: Factory, live: Option<int>, stored: Option<int>, constructed: nat) {
    && rt.registry == map[f.name := f]
    && rt.active == map[]
    && rt.constructed == constructed
    && (match live
        case None => rt.instances == map[] && rt.order == []
        case Some(n) => rt.instances == map["actor" := Instance(f, "actor", n)] && rt.order == ["actor"])
    && (match stored
        case None => rt.store == map[]
        case Some(n) => rt.store == map[Keys.Compose("Actor", "actor") := Model("actor", n)])
  }

  /** One call of a method on a live instance whose slot is free: the body's effect and nothing else. */
  lemma CallLive(rt: Runtime, name: string, id: string, member: string)
    requires id in rt.instances && Keys.Compose(name, id) !in rt.active
    requires member in rt.instances[id].cls.methods
    ensures var e := RunBody(rt.store, rt.instances[id], rt.instances[id].cls.methods[member]);
            Invoke(rt, name, id, member) ==
              (rt.(instances := rt.instances[id := e.inst], store := e.store, nextTicket := rt.nextTicket + 1),
               if e.result.Some? then Ok(e.result.value) else Err(Rejected(member)))
  {
    var key := Keys.Compose(name, id);
    Slots.AcquireReleaseRestores(rt.active, key, rt.nextTicket);
  }

  /** What a scenario class keeps in the store after a call that leaves the counter at `n`. */
  function StoredAfter(f: Factory, stored: Option<int>, n: int): (r: Option<int>) {
    if f == HookedActor then stored else Some(n)
  }

  /** A scenario class in a state the scenario can reach: the self-persisting class stores every value it reaches. */
  predicate Reachable(f: Factory, live: Option<int>, stored: Option<int>) {
    && (f == HookedActor || f == SelfPersistingActor)
    && (f == SelfPersistingActor && live.Some? ==> stored == live)
  }

  /** The first `count` on the hooked class: construction, `onWake` refreshes from the store, then the increment. */
  lemma HookedActivateStep(rt: Runtime, stored: Option<int>, k: nat)
    requires Summarizes(rt, HookedActor, None, stored, k)
    ensures var n := stored.GetOr(0) + 1;
            var (rt', res) := Call(rt, ActorRef, "count");
            res == Ok(n) && Summarizes(rt', HookedActor, Some(n), stored, k + 1)
  {
    var f := HookedActor;
    var woken := Fresh(rt.store, Construct(f, "actor"));
    assert woken == Instance(f, "actor", stored.GetOr(0));
    var rt1 := rt.(instances := map["actor" := woken], order := ["actor"],
                   constructed := k + 1, log := rt.log + [Woke("actor")]);
    assert "actor" !in rt.instances;
    assert "Actor" in rt.registry && rt.registry["Actor"] == f;
    assert rt.order + ["actor"] == ["actor"];
    assert rt.instances["actor" := woken] == map["actor" := woken];
    assert Activate(rt, "Actor", "actor") == Ok((rt1, woken));
    CallLive(rt1, "Actor", "actor", "count");
  }

  /** The first `count` on the self-persisting class: construction, then refresh, increment and snapshot. */
  lemma SelfPersistingActivateStep(rt: Runtime, stored: Option<int>, k: nat)
    requires Summarizes(rt, SelfPersistingActor, None, stored, k)
    ensures var n := stored.GetOr(0) + 1;
            var (rt', res) := Call(rt, ActorRef, "count");
            res == Ok(n) && Summarizes(rt', SelfPersistingActor, Some(n), Some(n), k + 1)
  {
    var f := SelfPersistingActor;
    var inst := Construct(f, "actor");
    var rt1 := rt.(instances := map["actor" := inst], order := ["actor"], constructed := k + 1);
    assert "actor" !in rt.instances;
    assert "Actor" in rt.registry && rt.registry["Actor"] == f;
    assert rt.order + ["actor"] == ["actor"];
    assert rt.instances["actor" := inst] == map["actor" := inst];
    assert Activate(rt, "Actor", "actor") == Ok((rt1, inst));
    CallLive(rt1, "Actor", "actor", "count");
    var key := Keys.Compose("Actor", "actor");
    assert rt.store[key := Model("actor", stored.GetOr(0) + 1)] == map[key := Model("actor", stored.GetOr(0) + 1)];
  }

  /** A later `count` on the live hooked class increments the counter and leaves the store alone. */
  lemma HookedLiveStep(rt: Runtime, n: int, stored: Option<int>, k: nat)
    requires Summarizes(rt, HookedActor, Some(n), stored, k)
    ensures var (rt', res) := Call(rt, ActorRef, "count");
            res == Ok(n + 1) && Summarizes(rt', HookedActor, Some(n + 1), stored, k)
  {
    CallLive(rt, "Actor", "actor", "count");
  }

  /** A later `count` on the live self-persisting class refreshes, increments and stores the new value. */
  lemma SelfPersistingLiveStep(rt: Runtime, n: int, k: nat)
    requires Summarizes(rt, SelfPersistingActor, Some(n), Some(n), k)
    ensures var (rt', res) := Call(rt, ActorRef, "count");
            res == Ok(n + 1) && Summarizes(rt', SelfPersistingActor, Some(n + 1), Some(n + 1), k)
  {
    CallLive(rt, "Actor", "actor", "count");
    var key := Keys.Compose("Actor", "actor");
    assert rt.store[key := Model("actor", n + 1)] == map[key := Model("actor", n + 1)];
  }

  /** One `count` through `ref(Actor, "actor")`: it activates if needed and returns the next counter value. */
  lemma CountStep(rt: Runtime, f: Factory, live: Option<int>, stored: Option<int>, k: nat)
    requires Reachable(f, live, stored) && Summarizes(rt, f, live, stored, k)
    ensures var n := live.GetOr(stored.GetOr(0)) + 1;
            var (rt', res) := Call(rt, ActorRef, "count");
            && res == Ok(n)
            && Summarizes(rt', f, Some(n), StoredAfter(f, stored, n), if live.None? then k + 1 else k)
  {
    if f == HookedActor {
      if live.None? { HookedActivateStep(rt, stored, k); } else { HookedLiveStep(rt, live.value, stored, k); }
    } else {
      if live.None? { SelfPersistingActivateStep(rt, stored, k); } else { SelfPersistingLiveStep(rt, live.value, k); }
    }
  }

  /** The observations of `steps`, computed on the summary (live counter, stored counter, constructions) alone. */
  function Expected(f: Factory, live: Option<int>, stored: Option<int>, k: nat, refs: nat, steps: seq<Step>): (obs: seq<Observation>)
    decreases |steps|
  {
    if |steps| == 0 then []
    else match steps[0]
      case TakeRef => Expected(f, live, stored, k, refs + 1, steps[1..])
      case CountVia(i) =>
        if i < refs then
          var n := live.GetOr(stored.GetOr(0)) + 1;
          [Returned(Ok(n))] + Expected(f, Some(n), StoredAfter(f, stored, n), if live.None? then k + 1 else k, refs, steps[1..])
        else Expected(f, live, stored, k, refs, steps[1..])
      case DrainGracefully =>
        Expected(f, None, if live.Some? then live else stored, k, refs, steps[1..])
      case ReadConstructions =>
        [Constructions(k)] + Expected(f, live, stored, k, refs, steps[1..])
  }

  /** `ref` on an already registered class changes nothing and names the actor. */
  lemma RefStep(rt: Runtime, f: Factory, live: Option<int>, stored: Option<int>, k: nat)
    requires f.name == "Actor" && Summarizes(rt, f, live, stored, k)
    ensures Ref(rt, f, Some("actor")) == (rt, ActorRef)
  {
    assert rt.registry[f.name := f] == rt.registry;
  }

  /** Draining a directory of one instance runs that instance's `onSleep`, if any, and nothing else. */
  lemma SleepOne(id: string, instances: map<string, Instance>, s: Store)
    requires id in instances
    ensures var sleeps := instances[id].cls.onSleep;
            SleepAll([id], instances, s).0 == if sleeps.Some? then RunAction(s, instances[id], sleeps.value).1 else s
  {
    var sleeps := instances[id].cls.onSleep;
    var s' := if sleeps.Some? then RunAction(s, instances[id], sleeps.value).1 else s;
    assert [id][1..] == [];
    assert SleepAll([], instances, s') == (s', []);
  }

  /** Draining the lone hooked actor leaves only its counter in the store. */
  lemma HookedDrainStore(rt: Runtime, n: int)
    requires rt.order == ["actor"] && rt.instances == map["actor" := Instance(HookedActor, "actor", n)]
    requires rt.store.Keys <= {Keys.Compose("Actor", "actor")}
    ensures Clear(rt, false).store == map[Keys.Compose("Actor", "actor") := Model("actor", n)]
  {
    SleepOne("actor", rt.instances, rt.store);
    assert Clear(rt, false).store == SleepAll(["actor"], rt.instances, rt.store).0;
    assert Clear(rt, false).store == rt.store[Keys.Compose("Actor", "actor") := Model("actor", n)];
  }

  /** A graceful drain of the live hooked actor snapshots its counter and evicts it. */
  lemma HookedDrainStep(rt: Runtime, n: int, stored: Option<int>, k: nat)
    requires Summarizes(rt, HookedActor, Some(n), stored, k)
    ensures Summarizes(Clear(rt, false), HookedActor, None, Some(n), k)
  {
    HookedDrainStore(rt, n);
  }

  /** A graceful drain of the live self-persisting actor runs no hook and evicts it. */
  lemma SelfPersistingDrainStep(rt: Runtime, n: int, k: nat)
    requires Summarizes(rt, SelfPersistingActor, Some(n), Some(n), k)
    ensures Summarizes(Clear(rt, false), SelfPersistingActor, None, Some(n), k)
  {
    SleepOne("actor", rt.instances, rt.store);
  }

  /** A graceful drain evicts the actor; the hooked class snapshots its counter on the way out. */
  lemma DrainStep(rt: Runtime, f: Factory, n: int, stored: Option<int>, k: nat)
    requires Reachable(f, Some(n), stored) && Summarizes(rt, f, Some(n), stored, k)
    ensures Summarizes(Clear(rt, false), f, None, Some(n), k)
  {
    if f == HookedActor {
      HookedDrainStep(rt, n, stored, k);
    } else {
      SelfPersistingDrainStep(rt, n, k);
    }
  }

  /** A graceful drain of an empty directory changes nothing observable. */
  lemma DrainIdleStep(rt: Runtime, f: Factory, stored: Option<int>, k: nat)
    requires Summarizes(rt, f, None, stored, k)
    ensures Summarizes(Clear(rt, false), f, None, stored, k)
  {
    assert SleepAll([], rt.instances, rt.store) == (rt.store, []);
  }

  /**
   * Every scenario step acts on the one shared actor: running steps against
   * the runtime observes exactly what the summary predicts.
   */
  lemma {:induction false} ExecMatchesExpected(rt: Runtime, f: Factory, refs: seq<Reference>, live: Option<int>, stored: Option<int>, k: nat, steps: seq<Step>)
    requires f.name == "Actor" && Reachable(f, live, stored) && Summarizes(rt, f, live, stored, k)
    requires forall i :: 0 <= i < |refs| ==> refs[i] == ActorRef
    ensures Exec(rt, f, refs, steps) == Expected(f, live, stored, k, |refs|, steps)
    decreases |steps|
  {
    if |steps| > 0 {
      match steps[0]
      case TakeRef =>
        RefStep(rt, f, live, stored, k);
        ExecMatchesExpected(rt, f, refs + [ActorRef], live, stored, k, steps[1..]);
      case CountVia(i) =>
        if i < |refs| {
          CountStep(rt, f, live, stored, k);
          var n := live.GetOr(stored.GetOr(0)) + 1;
          var (rt', res) := Call(rt, refs[i], "count");
          ExecMatchesExpected(rt', f, refs, Some(n), StoredAfter(f, stored, n), if live.None? then k + 1 else k, steps[1..]);
        } else {
          ExecMatchesExpected(rt, f, refs, live, stored, k, steps[1..]);
        }
      case DrainGracefully =>
        if live.Some? {
          DrainStep(rt, f, live.value, stored, k);
          ExecMatchesExpected(Clear(rt, false), f, refs, None, live, k, steps[1..]);
        } else {
          DrainIdleStep(rt, f, stored, k);
          ExecMatchesExpected(Clear(rt, false), f, refs, None, stored, k, steps[1..]);
        }
      case ReadConstructions =>
        ExecMatchesExpected(rt, f, refs, live, stored, k, steps[1..]);
    }
  }

  /** The summary's prediction for the steps after the drain. */
  lemma ExpectedAfterDrain(f: Factory)
    requires f == HookedActor || f == SelfPersistingActor
    ensures Expected(f, None, Some(5), 1, 2, Script[9..]) == Expectations[6..]
  {
    var t6 := StoredAfter(f, Some(5), 6);
    var t7 := StoredAfter(f, Some(5), 7);
    var t8 := StoredAfter(f, Some(5), 8);
    assert Expected(f, Some(8), t8, 2, 3, Script[14..]) == [];
    assert Expected(f, Some(8), t8, 2, 3, Script[13..]) == [Constructions(2)];
    assert Expected(f, Some(7), t7, 2, 3, Script[12..]) == [Returned(Ok(8)), Constructions(2)];
    assert Expected(f, Some(6), t6, 2, 3, Script[11..]) == [Returned(Ok(7)), Returned(Ok(8)), Constructions(2)];
    assert Expected(f, None, Some(5), 1, 3, Script[10..]) == Expectations[6..];
  }

  /** The summary's prediction from the construction count read before the drain. */
  lemma ExpectedAtDrain(f: Factory)
    requires f == HookedActor || f == SelfPersistingActor
    ensures Expected(f, Some(5), StoredAfter(f, None, 5), 1, 2, Script[7..]) == Expectations[5..]
  {
    var s5 := StoredAfter(f, None, 5);
    ExpectedAfterDrain(f);
    assert Expected(f, Some(5), s5, 1, 2, Script[8..]) == Expectations[6..];
  }

  /** The summary's prediction for the calls through `b` and `a` and the drain. */
  lemma ExpectedMiddle(f: Factory)
    requires f == HookedActor || f == SelfPersistingActor
    ensures Expected(f, Some(2), StoredAfter(f, None, 2), 1, 1, Script[3..]) == Expectations[2..]
  {
    var s3 := StoredAfter(f, None, 3);
    var s4 := StoredAfter(f, None, 4);
    ExpectedAtDrain(f);
    assert Expected(f, Some(4), s4, 1, 2, Script[6..]) == Expectations[4..];
    assert Expected(f, Some(3), s3, 1, 2, Script[5..]) == Expectations[3..];
    assert Expected(f, Some(2), StoredAfter(f, None, 2), 1, 2, Script[4..]) == Expectations[2..];
  }

  /** The summary predicts the repository's expectations for `Script`, for either class. */
  lemma ExpectedScript(f: Factory)
    requires f == HookedActor || f == SelfPersistingActor
    ensures Expected(f, None, None, 0, 0, Script) == Expectations
  {
    ExpectedMiddle(f);
    var s1 := StoredAfter(f, None, 1);
    assert Expected(f, Some(1), s1, 1, 1, Script[2..]) == Expectations[1..];
    assert Expected(f, None, None, 0, 1, Script[1..]) == Expectations;
    assert Script[0..] == Script;
  }

  /** The repository's test: hooks wired to `fresh`/`snap` carry the counter across the drain. */
  lemma HookedScenario()
    ensures Exec(Register(Empty, [HookedActor]), HookedActor, [], Script) == Expectations
  {
    RegisterOne(Empty, HookedActor);
    ExecMatchesExpected(Register(Empty, [HookedActor]), HookedActor, [], None, None, 0, Script);
    ExpectedScript(HookedActor);
  }

  /** The repository's driver: `count` persisting by itself gives the same observations. */
  lemma SelfPersistingScenario()
    ensures Exec(Register(Empty, [SelfPersistingActor]), SelfPersistingActor, [], Script) == Expectations
  {
    RegisterOne(Empty, SelfPersistingActor);
    ExecMatchesExpected(Register(Empty, [SelfPersistingActor]), SelfPersistingActor, [], None, None, 0, Script);
    ExpectedScript(SelfPersistingActor);
  }
}

=== FILE: silos.dfy ===
/**
 * The actor runtime (`Silos` in src/index.ts) as an immutable state and pure
 * transitions: the type registry, the instance directory, the active-call
 * map, the persistence gateway's store and the number of constructions.
 */
module Silos {
  import opened Wrappers
  import Persistence
  import Keys
  import Slots
  import opened Actors

  /** A lifecycle hook invocation, recorded in the order the runtime makes them. */
  datatype Event = Woke(id: string) | Slept(id: string)

  /** Why a call through the runtime did not return a value. */
  datatype Error =
    | Unregistered(name: string)    // `new ctr(id)` on a name with no registered constructor
    | NotAFunction(member: string)  // the instance has no such method
    | Blocked(key: string)          // the exclusion slot is held: the caller would suspend
    | Rejected(member: string)      // the method's promise rejected

  /**
   * The runtime. `registry` is `Silos.map`, `instances` is `Silos.ins` with
   * `order` its insertion order (the order `Map.values()` visits), `active`
   * is `Silos.activeCalls`, `store` is the default persistence gateway's map,
   * `constructed` counts every `new` of an actor class, `nextTicket` names
   * the next call, and `log` records the hooks run.
   */
  datatype Runtime = Runtime(
    registry: map<string, Factory>,
    instances: map<string, Instance>,
    order: seq<string>,
    active: Slots.Slots,
    store: Store,
    constructed: nat,
    nextTicket: nat,
    log: seq<Event>)

  /** The state of a freshly loaded module. */
  const Empty := Runtime(map[], map[], [], map[], map[], 0, 0, [])

  predicate NoDups<T(==)>(s: seq<T>) {
    forall i, j :: 0 <= i < j < |s| ==> s[i] != s[j]
  }

  /** `order` lists every live id exactly once. */
  ghost predicate WellFormed(rt: Runtime) {
    && NoDups(rt.order)
    && (forall id :: id in rt.order <==> id in rt.instances)
  }

  lemma EmptyWellFormed()
    ensures WellFormed(Empty)
  {
  }

  // ---------------------------------------------------------------- registry

  /** The names of the constructors passed. */
  function Names(fs: seq<Factory>): (r: set<string>) {
    set i | 0 <= i < |fs| :: fs[i].name
  }

  /** No later argument carries the same name as `fs[i]`. */
  predicate LastOfName(fs: seq<Factory>, i: int)
    requires 0 <= i < |fs|
  {
    forall j :: i < j < |fs| ==> fs[j].name != fs[i].name
  }

  lemma NamesCons(fs: seq<Factory>)
    requires |fs| > 0
    ensures Names(fs) == {fs[0].name} + Names(fs[1..])
  {
    var rest := fs[1..];
    forall n | n in Names(fs) ensures n in {fs[0].name} + Names(rest) {
      var i :| 0 <= i < |fs| && fs[i].name == n;
      if i > 0 { assert rest[i - 1] == fs[i]; }
    }
    forall n | n in Names(rest) ensures n in Names(fs) {
      var i :| 0 <= i < |rest| && rest[i].name == n;
      assert fs[i + 1] == rest[i];
    }
  }

  /** Registers the constructors one by one, each under its `name`; a later one with the same name wins. */
  function RegisterAll(reg: map<string, Factory>, fs: seq<Factory>): (r: map<string, Factory>)
    ensures r.Keys == reg.Keys + Names(fs)
    ensures forall n :: n in reg && n !in Names(fs) ==> r[n] == reg[n]
    ensures forall i :: 0 <= i < |fs| && LastOfName(fs, i) ==> r[fs[i].name] == fs[i]
    decreases |fs|
  {
    if |fs| == 0 then reg
    else
      var rest := fs[1..];
      NamesCons(fs);
      var r := RegisterAll(reg[fs[0].name := fs[0]], rest);
      assert forall i :: 0 < i < |fs| && LastOfName(fs, i) ==> LastOfName(rest, i - 1) && rest[i - 1] == fs[i];
      assert LastOfName(fs, 0) ==> fs[0].name !in Names(rest);
      r
  }

  /** `Silos.register(...fs)`: only the registry changes. */
  function Register(rt: Runtime, fs: seq<Factory>): (r: Runtime)
    ensures r == rt.(registry := r.registry)
    ensures r.registry.Keys == rt.registry.Keys + Names(fs)
    ensures forall n :: n in rt.registry && n !in Names(fs) ==> r.registry[n] == rt.registry[n]
    ensures forall i :: 0 <= i < |fs| && LastOfName(fs, i) ==> r.registry[fs[i].name] == fs[i]
  {
    rt.(registry := RegisterAll(rt.registry, fs))
  }

  /** Registering a single constructor maps its name to it and touches no other name. */
  lemma RegisterOne(rt: Runtime, f: Factory)
    ensures Register(rt, [f]).registry == rt.registry[f.name := f]
  {
    var r := Register(rt, [f]).registry;
    assert Names([f]) == {f.name};
    assert LastOfName([f], 0);
  }

  // ---------------------------------------------------------------- drain

  /**
   * The graceful drain loop: visits `ids` in order and runs the `onSleep`
   * hook of each live instance that has one, returning the store afterwards
   * and the hooks run.
   */
  function SleepAll(ids: seq<string>, instances: map<string, Instance>, s: Store): (r: (Store, seq<Event>))
    ensures forall e :: e in r.1 ==> e.Slept? && e.id in instances && instances[e.id].cls.onSleep.Some?
    ensures forall id :: multiset(r.1)[Slept(id)] ==
              if id in instances && instances[id].cls.onSleep.Some? then multiset(ids)[id] else 0
    decreases |ids|
  {
    if |ids| == 0 then (s, [])
    else
      var id := ids[0];
      var sleeps := id in instances && instances[id].cls.onSleep.Some?;
      var s' := if sleeps then RunAction(s, instances[id], instances[id].cls.onSleep.value).1 else s;
      var here := if sleeps then [Slept(id)] else [];
      var rest := SleepAll(ids[1..], instances, s');
      assert ids == [id] + ids[1..];
      (rest.0, here + rest.1)
  }

  /**
   * `Silos.clear(force)`. Forced: both the directory and the registry are
   * emptied and no hook runs. Graceful: every live instance's `onSleep` runs,
   * then only the directory is emptied.
   */
  function Clear(rt: Runtime, force: bool): (r: Runtime)
    ensures r.instances == map[] && r.order == []
    ensures r.constructed == rt.constructed && r.active == rt.active && r.nextTicket == rt.nextTicket
    ensures force ==> r.registry == map[] && r.store == rt.store && r.log == rt.log
    ensures !force ==> r.registry == rt.registry
    ensures !force ==> forall t, i ::
              NoSnapshotUnder(rt.instances, Keys.Compose(t, i)) ==>
                Persistence.Read(r.store, t, i) == Persistence.Read(rt.store, t, i)
  {
    if force then
      rt.(instances := map[], order := [], registry := map[])
    else
      SleepAllFrames(rt.order, rt.instances, rt.store);
      var (s, sleeps) := SleepAll(rt.order, rt.instances, rt.store);
      rt.(instances := map[], order := [], store := s, log := rt.log + sleeps)
  }

  /** The instance's `onSleep` hook snapshots it. */
  predicate SnapshotsOnSleep(instances: map<string, Instance>, id: string) {
    id in instances && instances[id].cls.onSleep == Some(Snapshot)
  }

  /** The composed key an instance's snapshot is stored under. */
  function SnapKey(i: Instance): (k: string) {
    Keys.Compose(i.cls.name, i.id)
  }

  /** No instance with a snapshotting `onSleep` stores under `key`. */
  predicate NoSnapshotUnder(instances: map<string, Instance>, key: string) {
    forall id :: id in instances && SnapshotsOnSleep(instances, id) ==> SnapKey(instances[id]) != key
  }

  /** The drain loop leaves alone every record whose key no snapshotting instance it visits composes to. */
  lemma {:induction false} SleepAllFrame(ids: seq<string>, instances: map<string, Instance>, s: Store, t: string, i: string)
    requires forall k :: 0 <= k < |ids| && SnapshotsOnSleep(instances, ids[k]) ==>
               SnapKey(instances[ids[k]]) != Keys.Compose(t, i)
    ensures Persistence.Read(SleepAll(ids, instances, s).0, t, i) == Persistence.Read(s, t, i)
    decreases |ids|
  {
    if |ids| > 0 {
      var id := ids[0];
      var sleeps := id in instances && instances[id].cls.onSleep.Some?;
      var s' := if sleeps then RunAction(s, instances[id], instances[id].cls.onSleep.value).1 else s;
      assert Persistence.Read(s', t, i) == Persistence.Read(s, t, i) by {
        if SnapshotsOnSleep(instances, id) {
          assert SnapKey(instances[ids[0]]) != Keys.Compose(t, i);
        }
      }
      forall k | 0 <= k < |ids[1..]| && SnapshotsOnSleep(instances, ids[1..][k])
        ensures SnapKey(instances[ids[1..][k]]) != Keys.Compose(t, i)
      {
        assert ids[1..][k] == ids[k + 1];
      }
      SleepAllFrame(ids[1..], instances, s', t, i);
    }
  }

  lemma SleepAllFrames(ids: seq<string>, instances: map<string, Instance>, s: Store)
    ensures forall t, i ::
              NoSnapshotUnder(instances, Keys.Compose(t, i)) ==>
                Persistence.Read(SleepAll(ids, instances, s).0, t, i) == Persistence.Read(s, t, i)
  {
    forall t, i | NoSnapshotUnder(instances, Keys.Compose(t, i))
      ensures Persistence.Read(SleepAll(ids, instances, s).0, t, i) == Persistence.Read(s, t, i)
    {
      SleepAllFrame(ids, instances, s, t, i);
    }
  }

  /**
   * A snapshotting instance visited at position `k` leaves its packed data in
   * the store, unless a later snapshotting instance overwrites the same key.
   */
  lemma {:induction false} SleepAllStores(ids: seq<string>, instances: map<string, Instance>, s: Store, k: nat)
    requires k < |ids| && SnapshotsOnSleep(instances, ids[k])
    requires forall j :: k < j < |ids| && SnapshotsOnSleep(instances, ids[j]) ==>
               SnapKey(instances[ids[j]]) != SnapKey(instances[ids[k]])
    ensures var inst := instances[ids[k]];
            Persistence.Read(SleepAll(ids, instances, s).0, inst.cls.name, inst.id) == Some(Pack(inst))
    decreases |ids|
  {
    var id := ids[0];
    var sleeps := id in instances && instances[id].cls.onSleep.Some?;
    var s' := if sleeps then RunAction(s, instances[id], instances[id].cls.onSleep.value).1 else s;
    var inst := instances[ids[k]];
    forall j | 0 <= j < |ids[1..]| && SnapshotsOnSleep(instances, ids[1..][j]) && k <= j
      ensures SnapKey(instances[ids[1..][j]]) != SnapKey(inst)
    {
      assert ids[1..][j] == ids[j + 1];
    }
    if k == 0 {
      assert Persistence.Read(s', inst.cls.name, inst.id) == Some(Pack(inst));
      SleepAllFrame(ids[1..], instances, s', inst.cls.name, inst.id);
    } else {
      assert ids[1..][k - 1] == ids[k];
      SleepAllStores(ids[1..], instances, s', k - 1);
    }
  }

  lemma NoDupsCount<T>(s: seq<T>, x: T)
    requires NoDups(s)
    ensures multiset(s)[x] == if x in s then 1 else 0
  {
    if |s| > 0 {
      assert s == [s[0]] + s[1..];
      assert NoDups(s[1..]);
      NoDupsCount(s[1..], x);
      if x == s[0] {
        assert x !in s[1..];
      }
    }
  }

  /** A graceful drain runs `onSleep` exactly once for each live instance that has the hook, and no other hook. */
  lemma GracefulSleepsOnce(rt: Runtime, id: string)
    requires WellFormed(rt)
    ensures var hooks := Clear(rt, false).log[|rt.log|..];
            multiset(hooks)[Slept(id)] == (if id in rt.instances && rt.instances[id].cls.onSleep.Some? then 1 else 0)
            && multiset(hooks)[Woke(id)] == 0
  {
    var (s, sleeps) := SleepAll(rt.order, rt.instances, rt.store);
    assert Clear(rt, false).log[|rt.log|..] == sleeps;
    NoDupsCount(rt.order, id);
    assert Woke(id) !in sleeps;
  }

  /**
   * A graceful drain changes no record whose key no live instance with a
   * snapshotting `onSleep` composes to.
   */
  lemma GracefulDrainFrame(rt: Runtime, t: string, i: string)
    requires NoSnapshotUnder(rt.instances, Keys.Compose(t, i))
    ensures Persistence.Read(Clear(rt, false).store, t, i) == Persistence.Read(rt.store, t, i)
  {
    SleepAllFrame(rt.order, rt.instances, rt.store, t, i);
  }

  /**
   * A graceful drain leaves each snapshotting live instance's packed data in
   * the store, unless an instance later in insertion order snapshots under
   * the same composed key, in which case the later one wins.
   */
  lemma GracefulDrainStores(rt: Runtime, k: nat)
    requires k < |rt.order| && SnapshotsOnSleep(rt.instances, rt.order[k])
    requires forall j :: k < j < |rt.order| && SnapshotsOnSleep(rt.instances, rt.order[j]) ==>
               SnapKey(rt.instances[rt.order[j]]) != SnapKey(rt.instances[rt.order[k]])
    ensures var inst := rt.instances[rt.order[k]];
            Persistence.Read(Clear(rt, false).store, inst.cls.name, inst.id) == Some(Pack(inst))
  {
    SleepAllStores(rt.order, rt.instances, rt.store, k);
  }

  /** A forced drain runs no hook at all and leaves the store alone. */
  lemma ForcedRunsNoHook(rt: Runtime)
    ensures Clear(rt, true).log == rt.log && Clear(rt, true).store == rt.store
  {
  }

  // ---------------------------------------------------------------- activation

  /**
   * The activation step of `invoke`: reuses the instance registered under
   * `id` whatever `name` is; otherwise constructs one with the constructor
   * registered under `name`, adds it to the directory, and then runs its
   * `onWake` hook.
   */
  function Activate(rt: Runtime, name: string, id: string): (r: Result<(Runtime, Instance), Error>)
    ensures id in rt.instances ==> r == Ok((rt, rt.instances[id]))
    ensures id !in rt.instances && name !in rt.registry ==> r == Err(Unregistered(name))
    ensures id !in rt.instances && name in rt.registry ==>
              && r.Ok?
              && var (rt', inst) := r.value;
              && rt'.constructed == rt.constructed + 1
              && rt'.instances == rt.instances[id := inst]
              && rt'.order == rt.order + [id]
              && rt'.registry == rt.registry && rt'.active == rt.active && rt'.nextTicket == rt.nextTicket
              && inst.cls == rt.registry[name]
              && (inst.cls.onWake.None? ==> inst == Construct(inst.cls, id) && rt'.log == rt.log)
              && (inst.cls.onWake.Some? ==> rt'.log == rt.log + [Woke(id)])
              && (inst.cls.onWake.Some? ==>
                    (inst, rt'.store) == RunAction(rt.store, Construct(inst.cls, id), inst.cls.onWake.value))
              && (inst.cls.onWake != Some(Snapshot) ==> rt'.store == rt.store)
    ensures r.Ok? ==> r.value.0.instances[id] == r.value.1
  {
    if id in rt.instances then Ok((rt, rt.instances[id]))
    else if name !in rt.registry then Err(Unregistered(name))
    else
      var inst := Construct(rt.registry[name], id);
      var (woken, s, log) :=
        match inst.cls.onWake
        case None => (inst, rt.store, rt.log)
        case Some(a) =>
          var (i', s') := RunAction(rt.store, inst, a);
          (i', s', rt.log + [Woke(id)]);
      var rt' := rt.(instances := rt.instances[id := woken], order := rt.order + [id],
                     store := s, constructed := rt.constructed + 1, log := log);
      Ok((rt', woken))
  }

  /** The directory is keyed by id alone: a live id activates the same instance under any type name. */
  lemma KeyedByIdAlone(rt: Runtime, name1: string, name2: string, id: string)
    requires id in rt.instances
    ensures Activate(rt, name1, id) == Activate(rt, name2, id)
    ensures Activate(rt, name2, id).Ok? && Activate(rt, name2, id).value.1.cls == rt.instances[id].cls
  {
  }

  /** Activation keeps every live id listed exactly once in `order`. */
  lemma ActivatePreservesWellFormed(rt: Runtime, name: string, id: string)
    requires WellFormed(rt) && Activate(rt, name, id).Ok?
    ensures WellFormed(Activate(rt, name, id).value.0)
  {
    if id !in rt.instances {
      var rt' := Activate(rt, name, id).value.0;
      assert id !in rt.order;
      forall i, j | 0 <= i < j < |rt'.order| ensures rt'.order[i] != rt'.order[j] {
        if j == |rt.order| { assert rt'.order[i] == rt.order[i]; }
      }
    }
  }

  // ---------------------------------------------------------------- invoke

  /**
   * `invoke(name, id, member)`, run to completion: activates, waits for the
   * slot `${name}-${id}` (reported as `Blocked` when held), calls the method
   * while holding the slot, and releases the slot whether the method
   * returned or rejected.
   */
  function Invoke(rt: Runtime, name: string, id: string, member: string): (r: (Runtime, Result<int, Error>))
    ensures r.0.registry == rt.registry
    ensures r.1 == Err(Unregistered(name)) <==> id !in rt.instances && name !in rt.registry
    ensures r.1 == Err(Unregistered(name)) ==> r.0 == rt
    ensures r.0.constructed == rt.constructed + (if id !in rt.instances && name in rt.registry then 1 else 0)
    ensures id in rt.instances ==>
              && r.0.instances.Keys == rt.instances.Keys && r.0.order == rt.order
              && r.0.instances[id].cls == rt.instances[id].cls && r.0.log == rt.log
    ensures id !in rt.instances && name in rt.registry ==>
              && r.0.instances.Keys == rt.instances.Keys + {id} && r.0.order == rt.order + [id]
              && r.0.instances[id].cls == rt.registry[name]
    ensures forall other :: other != id && other in rt.instances ==> other in r.0.instances && r.0.instances[other] == rt.instances[other]
    ensures Keys.Compose(name, id) !in rt.active ==> r.0.active == rt.active
    ensures Keys.Compose(name, id) in rt.active && id in rt.instances ==> r == (rt, Err(Blocked(Keys.Compose(name, id))))
    ensures Keys.Compose(name, id) in rt.active && Activate(rt, name, id).Ok? ==>
              r == (Activate(rt, name, id).value.0, Err(Blocked(Keys.Compose(name, id))))
    ensures r.1.Ok? ==> r.1.value == r.0.instances[id].counter
    ensures Activate(rt, name, id).Ok? && Keys.Compose(name, id) !in rt.active ==>
              var (rt1, inst) := Activate(rt, name, id).value;
              && (member !in inst.cls.methods ==> r == (rt1, Err(NotAFunction(member))))
              && (member in inst.cls.methods ==>
                    var e := RunBody(rt1.store, inst, inst.cls.methods[member]);
                    && r.0 == rt1.(instances := rt1.instances[id := e.inst], store := e.store,
                                  nextTicket := rt1.nextTicket + 1)
                    && (r.1.Ok? <==> e.result.Some?)
                    && (r.1.Ok? ==> r.1.value == e.result.value)
                    && (r.1.Err? ==> r.1 == Err(Rejected(member))))
  {
    match Activate(rt, name, id)
    case Err(e) => (rt, Err(e))
    case Ok((rt1, inst)) =>
      var key := Keys.Compose(name, id);
      if key in rt1.active then (rt1, Err(Blocked(key)))
      else if member !in inst.cls.methods then (rt1, Err(NotAFunction(member)))
      else
        var ticket := rt1.nextTicket;
        var held := Slots.Acquire(rt1.active, key, ticket).value;
        var e := RunBody(rt1.store, inst, inst.cls.methods[member]);
        Slots.AcquireReleaseRestores(rt1.active, key, ticket);
        var rt2 := rt1.(instances := rt1.instances[id := e.inst], store := e.store,
                        active := Slots.Release(held, key, ticket), nextTicket := ticket + 1);
        (rt2, if e.result.Some? then Ok(e.result.value) else Err(Rejected(member)))
  }

  /** A call keeps every live id listed exactly once in `order`. */
  lemma InvokePreservesWellFormed(rt: Runtime, name: string, id: string, member: string)
    requires WellFormed(rt)
    ensures WellFormed(Invoke(rt, name, id, member).0)
  {
    if Activate(rt, name, id).Ok? {
      ActivatePreservesWellFormed(rt, name, id);
    }
  }

  /** Once the directory holds `id`, calls construct nothing and keep the same instance class, whatever type name they use. */
  lemma ReuseDoesNotConstruct(rt: Runtime, name: string, id: string, member: string)
    requires id in rt.instances
    ensures Invoke(rt, name, id, member).0.constructed == rt.constructed
    ensures Invoke(rt, name, id, member).0.instances[id].cls == rt.instances[id].cls
  {
  }

  /**
   * A method that rejects still gives its slot back, so the next call on
   * the same actor is not blocked and the instance stays live.
   */
  lemma RejectedCallFreesSlot(rt: Runtime, name: string, id: string, member: string, next: string)
    requires Keys.Compose(name, id) !in rt.active
    requires id in rt.instances && member in rt.instances[id].cls.methods
    requires rt.instances[id].cls.methods[member] == Reject
    ensures var (rt', res) := Invoke(rt, name, id, member);
            && res == Err(Rejected(member))
            && id in rt'.instances
            && Invoke(rt', name, id, next).1 != Err(Blocked(Keys.Compose(name, id)))
  {
  }

  /**
   * After a graceful drain, the next call on any id whose type is still
   * registered constructs a new instance, since the directory is empty.
   */
  lemma ReactivationConstructs(rt: Runtime, name: string, id: string, member: string)
    requires name in rt.registry
    ensures var rt' := Invoke(Clear(rt, false), name, id, member).0;
            rt'.constructed == rt.constructed + 1 && id in rt'.instances
  {
  }

  /**
   * After a forced drain, a call through a fresh reference registers the
   * type again and constructs a new instance.
   */
  lemma ForcedReactivationConstructs(rt: Runtime, f: Factory, id: string, member: string)
    ensures var (rt1, ref) := Ref(Clear(rt, true), f, Some(id));
            var rt' := Call(rt1, ref, member).0;
            rt'.constructed == rt.constructed + 1 && id in rt'.instances && rt'.instances[id].cls == f
  {
  }

  /** A forced drain forgets every type: a call not preceded by a new registration fails. */
  lemma ForcedClearForgetsTypes(rt: Runtime, name: string, id: string, member: string)
    ensures Invoke(Clear(rt, true), name, id, member) == (Clear(rt, true), Err(Unregistered(name)))
  {
  }

  // ---------------------------------------------------------------- references

  /** A reference: the type name and id that its method calls are forwarded with. */
  datatype Reference = Reference(typeName: string, id: string)

  /** `ref(factory, id)`: registers `factory` and names the actor; the id defaults to the constructor's name. */
  function Ref(rt: Runtime, f: Factory, id: Option<string>): (r: (Runtime, Reference))
    ensures r.0 == rt.(registry := rt.registry[f.name := f])
    ensures r.1.typeName == f.name
    ensures id.Some? ==> r.1.id == id.value
    ensures id.None? ==> r.1.id == f.name
  {
    RegisterOne(rt, f);
    (Register(rt, [f]), Reference(f.name, id.GetOr(f.name)))
  }

  /** A method call through a reference. */
  function Call(rt: Runtime, ref: Reference, member: string): (r: (Runtime, Result<int, Error>))
    ensures r.0.registry == rt.registry
    ensures ref.typeName in rt.registry ==> r.1 != Err(Unregistered(ref.typeName))
    ensures Keys.Compose(ref.typeName, ref.id) !in rt.active ==> r.0.active == rt.active
    ensures Keys.Compose(ref.typeName, ref.id) in rt.active && ref.id in rt.instances ==>
              r == (rt, Err(Blocked(Keys.Compose(ref.typeName, ref.id))))
  {
    Invoke(rt, ref.typeName, ref.id, member)
  }

  /** A call through a fresh reference never fails for want of registration, even after a forced drain. */
  lemma RefRegisters(rt: Runtime, f: Factory, id: Option<string>, member: string)
    ensures var (rt', ref) := Ref(rt, f, id);
            Call(rt', ref, member).1 != Err(Unregistered(f.name))
  {
  }

  // ---------------------------------------------------------------- load

  /**
   * `load(factory, id)`: reads the record stored under the constructor's
   * name and id, bypassing the directory; with no record, constructs a new,
   * unregistered instance.
   */
  function Load(rt: Runtime, f: Factory, id: string): (r: (Runtime, Instance))
    ensures r.0 == rt.(constructed := r.0.constructed)
    ensures r.1.cls == f
    ensures Persistence.Read(rt.store, f.name, id).None? ==>
              r.0.constructed == rt.constructed + 1 && r.1 == Construct(f, id)
    ensures Persistence.Read(rt.store, f.name, id).Some? ==>
              r.0.constructed == rt.constructed && Pack(r.1) == Persistence.Read(rt.store, f.name, id).value
  {
    match Persistence.Read(rt.store, f.name, id)
    case Some(m) => (rt, Unpack(f, m))
    case None => (rt.(constructed := rt.constructed + 1), Construct(f, id))
  }

  /** `snap(x)` followed by `load` of its class and id yields `x` again, and constructs nothing. */
  lemma SnapThenLoad(rt: Runtime, x: Instance)
    ensures var rt' := rt.(store := Snap(rt.store, x));
            Load(rt', x.cls, x.id) == (rt', x)
  {
  }
}

=== FILE: slots.dfy ===
/**
 * The exclusion-slot bookkeeping of `invoke` (`Silos.activeCalls`): a map from
 * the text `${name}-${id}` to the call currently in flight against that actor.
 * Each call is identified by a ticket, standing for the identity of its promise.
 */
module Slots {
  import opened Wrappers
  import Keys

  /** The identity of one in-flight call. */
  type Ticket = nat

  /** The active-call map. */
  type Slots = map<string, Ticket>

  /**
   * Takes the slot for `key` on behalf of call `t`. `None` means the slot is
   * held by another call and the caller has to wait for it.
   */
  function Acquire(s: Slots, key: string, t: Ticket): (r: Option<Slots>)
    ensures r.Some? <==> key !in s
    ensures r.Some? ==> r.value.Keys == s.Keys + {key} && r.value[key] == t
    ensures r.Some? ==> forall k :: k in s ==> r.value[k] == s[k]
  {
    if key in s then None else Some(s[key := t])
  }

  /**
   * Releases the slot when call `t` finishes: the entry is deleted only if
   * it still records `t`, so a finishing call never frees a slot that a
   * later call has taken over.
   */
  function Release(s: Slots, key: string, t: Ticket): (r: Slots)
    ensures key in r <==> key in s && s[key] != t
    ensures key in s && s[key] != t ==> r == s
    ensures forall k :: k != key ==> (k in r <==> k in s)
    ensures forall k :: k in r ==> r[k] == s[k]
  {
    if key in s && s[key] == t then s - {key} else s
  }

  /** While one call holds a slot, every other call on the same key has to wait. */
  lemma AcquireExcludes(s: Slots, key: string, t1: Ticket, t2: Ticket)
    requires key !in s
    ensures Acquire(Acquire(s, key, t1).value, key, t2) == None
  {
  }

  /** A call that acquires and then releases its slot leaves the map as it found it. */
  lemma AcquireReleaseRestores(s: Slots, key: string, t: Ticket)
    requires key !in s
    ensures Release(Acquire(s, key, t).value, key, t) == s
  {
    var held := Acquire(s, key, t).value;
    assert held - {key} == s;
  }

  /**
   * Settles call `t` as the source does: when the method's promise rejects,
   * the `await` throws before the release runs, so the slot stays held.
   */
  function SettleAsWritten(s: Slots, key: string, t: Ticket, rejected: bool): (r: Slots)
    ensures !rejected ==> r == Release(s, key, t)
    ensures rejected ==> r == s
  {
    if rejected then s else Release(s, key, t)
  }

  /**
   * With the source's settlement a rejected call keeps its slot forever:
   * every later call on the same actor finds the slot held.
   */
  lemma RejectedCallKeepsSlot(s: Slots, key: string, t: Ticket, later: Ticket)
    requires key !in s
    ensures var settled := SettleAsWritten(Acquire(s, key, t).value, key, t, true);
            key in settled && settled[key] == t && Acquire(settled, key, later) == None
  {
  }

  /** The concrete case: a rejected `count` on actor "actor" of type "Actor" blocks the next call. */
  lemma RejectedCallKeepsSlotExample()
    ensures var settled := SettleAsWritten(map["Actor-actor" := 0], "Actor-actor", 0, true);
            Acquire(settled, Keys.Compose("Actor", "actor"), 1) == None
  {
    assert Keys.Compose("Actor", "actor") == "Actor-actor";
  }
}

=== FILE: wrappers.dfy ===
/** Optional values and error-carrying results shared by the runtime's modules. */
module Wrappers {

  /** A value that may be absent: JavaScript's `undefined`/`null` become `None`. */
  datatype Option<+T> = None | Some(value: T) {

    /** The wrapped value, or `default` when absent (JavaScript's `??`). */
    function GetOr(default: T): T {
      match this
      case Some(v) => v
      case None => default
    }
  }

  /** The outcome of an operation that either yields a value or throws. */
  datatype Result<+T, +E> = Ok(value: T) | Err(error: E)
}
